=== FILE: README.md ===
# Atomic composition core, modelled in Dafny

This project models the in-memory core of the KraftHaus Atomic view library.
An *entity* owns an action method. Given a fresh root *component* and the
entity's data, the action builds a tree of components. Each child is created
by name: the *registrar* maps the name to a component class. A *builder* then
validates every node's props against its class's rules. It walks the tree in
pre-order and stops at the first node that fails. After that, the tree is
rendered: a component either has a template view or concatenates its
children's renders.

Modules, one per source class (plus small shared ones):

- `Wrappers` (`wrappers.dfy`): `Option`, `Result` (a thrown exception is a `Failure`), `Outcome`.
- `Errors` (`errors.dfy`): the exceptions and their message texts.
- `PhpArrays` (`php_arrays.dfy`): PHP values and string-keyed arrays. `Merge` models a `foreach` of assignments, which is also what `array_merge` does for string keys.
- `Registrar` (`registrar.dfy`): the name-to-class map.
- `Components` (`component.dfy`): the tree node. It covers props, the constructor, `addChild`, `__call` and rendering.
- `ComponentPaths` (`paths.dfy`): handles on nodes inside a tree. PHP's object references become paths of child indexes. A node's parent is the node at its path minus the last index.
- `Builders` (`builder.dfy`): the pre-order, fail-fast validation walk.
- `Entities` (`entity.dfy`): data, execution, entity rendering.
- `Factory` (`factory.dfy`): parses `"Type@action"` references.
- `Includes` (`include.dfy`): `Component::include`, which needs the factory and entities.

Collaborators the core cannot see are parameters:

- the validation service (`Builders.Validator`: a pass/fail function and a message function);
- the template engine (a function from a view name and a component or entity to a string);
- the component classes PHP can load (`Components.Runtime.classes`: default props, rules and view kind per class name);
- the entity classes and their action methods (`Entities.Program`).

The model is functional: a PHP method that mutates its receiver and returns
it becomes a function that returns the updated value. So `build`, which only
reads the tree, cannot change props or children. Plain accessors are fields:
`getProps` and `getPropValidations` are `props` and `rules`, and `getData` is
`data`. The magic `__get`, `__set` and `__isset` of a component delegate to
`Get`, `Set` and `Has`.

Behaviour worth noting:

- `execute` does not check whether the entity was already executed. It always runs the action on a fresh root with the current data, and rebuilds (`Entities.ExecuteIgnoresFlag`, `Entities.ExecuteIsNotIdempotent`). Only `render` checks the executed flag.
- The builder walks every child, including a root grafted by `include` during an action. So the grafted subtree is validated again by the including entity's build. Because it already passed, the outcome does not change (`Includes.IncludeKeepsBuildOutcome`).
- The second argument of `addChild` (and each value of a constructor's `children` array) is the child's *constructor arguments*, with optional `props` and `children` entries. Construction is therefore recursive.
- A bulk registration applies its entries in array order. A PHP array cannot repeat a key, so the order cannot be observed there. The model accepts repeated keys and lets the last one win.

## Model

| member | source | states |
|---|---|---|
| Registrar.New | src/KraftHaus/Atomic/Registrar.php:26-29 | a fresh registrar has no names |
| Registrar.Register | src/KraftHaus/Atomic/Registrar.php:45 | after registering, the name is present with that class; every other name keeps its presence and class |
| Registrar.RegisterAll | src/KraftHaus/Atomic/Registrar.php:38-49 | bulk registration registers each entry in turn: the result is the old map overridden by the array; a listed name gets its last entry's class; unlisted names resolve as before |
| Registrar.Get | src/KraftHaus/Atomic/Registrar.php:57-76 | fails with UnknownComponent exactly for an unregistered name; succeeds exactly when a non-null class is stored, returning it |
| Registrar.RegisterThenGet | src/KraftHaus/Atomic/Registrar.php:38-76 | after register(n, c), has(n) and get(n) == c |
| Registrar.LastRegistrationWins | src/KraftHaus/Atomic/Registrar.php:45 | registering a name twice equals registering only the second class |
| Registrar.RegisterFrame | src/KraftHaus/Atomic/Registrar.php:45 | registering one name leaves get of every other name unchanged |
| PhpArrays.Merge | src/KraftHaus/Atomic/Component.php:186-188 | writing array entries one by one, front to back, yields the old map overridden by the array (later entries win) |
| Errors.Message | src/KraftHaus/Atomic/Exceptions/UnknownComponentException.php:21 | an unknown component reads "Unable to find component <name>"; a validation failure with one message reads that message |
| Errors.PropValidationMessage | src/KraftHaus/Atomic/Exceptions/PropValidationException.php:31 | the validation exception message is the validator messages joined by ", " in order |
| Components.NewComponent | src/KraftHaus/Atomic/Entity.php:169 | `new Component` is a base-class node with no props, no rules, no children and the default view |
| Components.Set | src/KraftHaus/Atomic/Component.php:150-155 | after set(k, v), get(k) is v, every other key reads as before, and children, class, rules and view are unchanged |
| Components.SetThenGet | src/KraftHaus/Atomic/Component.php:138-166 | after set(k, v), get(k) == v and has(k) holds iff v is not null (isset) |
| Components.SetFrame | src/KraftHaus/Atomic/Component.php:150-166 | set(k, v) does not change has for any other key |
| Components.SetProps | src/KraftHaus/Atomic/Component.php:184-191 | after setProps(m) the props equal the old props overridden by m; nothing else changes |
| Components.SetPropsValues | src/KraftHaus/Atomic/Component.php:184-191 | each key of m reads as its last value in m; a key not in m reads as before |
| Components.Construct | src/KraftHaus/Atomic/Component.php:53-78 | an unloadable class fails; a loadable class with no children entry always succeeds; on a success without a closure children entry the node has its class's rules and view and its props are the class defaults overridden by the given props; with no children entry it has no children; with a children array it has one child per entry |
| Components.AddEntries | src/KraftHaus/Atomic/Component.php:72-76 | adding the children array keeps the node's props and earlier children and appends exactly one child per entry |
| Components.AddEntriesInOrder | src/KraftHaus/Atomic/Component.php:72-76 | the children array succeeds iff every entry's child can be created, and the i-th appended child is the one created from the i-th entry |
| Components.ConstructWithEntries | src/KraftHaus/Atomic/Component.php:53-78 | constructing with a children array sets the props first and then adds one child per entry in array order |
| Components.Spawn | src/KraftHaus/Atomic/Component.php:212-214 | a failed registrar lookup (unregistered name, or a stored null class) is passed on unchanged; otherwise the child is the registered class constructed with the given arguments |
| Components.AddChild | src/KraftHaus/Atomic/Component.php:210-223 | an unregistered name fails with UnknownComponent before anything is appended; otherwise the receiver gets exactly the new child appended after its unchanged children, and that new child is returned |
| Components.AddChildSeedsProps | src/KraftHaus/Atomic/Component.php:53-58 | addChild with a props entry on a registered, loadable name succeeds; the new last child has the class defaults overridden by those props and no children |
| Components.Call | src/KraftHaus/Atomic/Component.php:85-97 | a dynamic call on an unregistered name fails with "undefined method" on the base Component class; a successful call appends the returned child |
| Components.CallIsAddChild | src/KraftHaus/Atomic/Component.php:96 | on a registered name the dynamic call equals addChild with the first argument, or with no arguments when there is none or it is null |
| Components.View | src/KraftHaus/Atomic/Component.php:275-284 | the default view's loop yields the in-order concatenation of the children's renders, which is the render of a component without a template |
| Components.LeafRendersEmpty | src/KraftHaus/Atomic/Component.php:275-284 | a childless component without a template renders to "" |
| Components.RenderAfterAppend | src/KraftHaus/Atomic/Component.php:230-284 | appending a child to a component without a template appends the child's render to its render |
| ComponentPaths.AddChildAt | src/KraftHaus/Atomic/Component.php:210-223 | addChild on the node a handle designates succeeds exactly when addChild on that node succeeds, fails with the same error otherwise, returns the handle of the new child, whose parent handle is the receiver's; the receiver becomes addChild's result and nodes on diverging paths are unchanged |
| Builders.WalkIsFailFastPreOrder | src/KraftHaus/Atomic/Builder.php:39-68 | the nodes validated are exactly the pre-order prefix ending at the first failing node, which is where the walk fails; with no failing node, all nodes in pre-order |
| Builders.WalkAllIsFailFastPreOrder | src/KraftHaus/Atomic/Builder.php:49-51 | the loop over children validates the children's subtrees in order and stops at the first failure |
| Builders.Build | src/KraftHaus/Atomic/Builder.php:39-68 | build succeeds iff every node reachable from the root passes validation, returns the builder itself, and otherwise fails with the messages of the first failing node in pre-order |
| Builders.PreOrderOfChildren | src/KraftHaus/Atomic/Builder.php:44-51 | a node is validated before its children, and the i-th child's subtree comes after those of the children before it |
| Builders.PreOrderAfterAppend | src/KraftHaus/Atomic/Builder.php:49-51 | appending a child appends its subtree to the order in which build visits nodes |
| Builders.FailFastExample | src/KraftHaus/Atomic/Builder.php:44-51 | with an invalid child first the walk stops at it; with a valid child first it checks that child's subtree first, then fails at the invalid one |
| Entities.New | src/KraftHaus/Atomic/Entity.php:21-64 | a new entity stores its action, has empty data, no component or builder, the default view, and is not executed |
| Entities.With | src/KraftHaus/Atomic/Entity.php:112-121 | with(k, v) makes data[k] == v, leaves other keys unchanged and returns the same entity otherwise |
| Entities.WithAll | src/KraftHaus/Atomic/Entity.php:114-115 | with(array) merges: the new entries win and keys only in the old data are kept |
| Entities.WithAllValues | src/KraftHaus/Atomic/Entity.php:114-115 | after with(array), each given key holds its last given value and other keys keep theirs |
| Entities.GetComponent | src/KraftHaus/Atomic/Entity.php:192-195 | returns the stored root, and fails with a TypeError (a null return from that getter) before one is stored |
| Entities.GetBuilder | src/KraftHaus/Atomic/Entity.php:202-205 | returns the stored builder, and fails with a TypeError (a null return from that getter) before one is stored |
| Entities.Execute | src/KraftHaus/Atomic/Entity.php:165-185 | runs the action on a fresh root with the current data, whatever the executed flag; an action exception is passed on unchanged; when the action returns, execute passes iff the build of the returned tree succeeds; on any failure the entity is unchanged; on success it stores the built root and its builder and sets executed, and every node of that root passed validation |
| Entities.ExecuteThenGetComponent | src/KraftHaus/Atomic/Entity.php:173-195 | after a successful execute, executed holds and getComponent returns the root the action built |
| Entities.ExecuteBuildFailure | src/KraftHaus/Atomic/Entity.php:173-182 | when the build throws, the entity is unchanged and the error carries the first failing node's messages |
| Entities.ExecuteIgnoresFlag | src/KraftHaus/Atomic/Entity.php:165-185 | executing an already executed entity has the same outcome and result as executing a fresh one |
| Entities.ExecuteIsNotIdempotent | src/KraftHaus/Atomic/Entity.php:165-185 | a second execute after new data builds a different tree: there is no execute-once guard |
| Entities.RenderEntity | src/KraftHaus/Atomic/Entity.php:139-158 | executes first only when not executed and passes an execution failure on; succeeds iff the entity was executed with a stored tree and builder or the execution it runs passes; a stored-flag entity without a tree fails with getComponent's TypeError; renders the given view, or the entity's default view when the argument is null, "" or "0" |
| Entities.RenderFreshDefault | src/KraftHaus/Atomic/Entity.php:139-158 | rendering a fresh entity with no view executes it and renders "atomic::entity" |
| Entities.RenderExecutesOnce | src/KraftHaus/Atomic/Entity.php:141-146 | a render after a successful render does not execute again: it leaves the entity as it was, and its result is the same under every program (actions and validator), so neither is consulted |
| Factory.Make | src/KraftHaus/Atomic/Factory.php:21-32 | no action and no "@" fails with "No entity action provided."; an explicit action takes the reference verbatim as the class, failing with class-not-found when it cannot be loaded; with "@" it succeeds iff the first piece is a loadable class; a result is always a fresh, unexecuted entity |
| Factory.Split | src/KraftHaus/Atomic/Factory.php:24-28 | a reference that contains "@" always has both a class piece and an action piece |
| Factory.ImplodeExplode | src/KraftHaus/Atomic/Factory.php:28 | joining the pieces explode gives with "@" restores the reference |
| Factory.ExplodeImplode | src/KraftHaus/Atomic/Factory.php:28 | exploding "@"-free pieces joined with "@" gives the pieces back |
| Factory.ExplodePiecesHaveNoSeparator | src/KraftHaus/Atomic/Factory.php:28 | no piece of an explode contains "@" |
| Factory.MakeTypeAtAction | src/KraftHaus/Atomic/Factory.php:28-31 | "T@a" yields a fresh entity of class T bound to action a |
| Factory.MakeDropsRest | src/KraftHaus/Atomic/Factory.php:28 | with several "@", the class is the text before the first and the action the text between the first and second |
| Factory.MakeExplicitActionVerbatim | src/KraftHaus/Atomic/Factory.php:23-31 | with an explicit action the reference is the class verbatim, even if it has an "@" |
| Includes.Include | src/KraftHaus/Atomic/Component.php:254-267 | a factory failure is passed on; once make succeeds, include succeeds iff executing the made entity passes, and an execution failure is passed on; on success the built root is appended as the last child and returned, and every node of that root passed validation |
| Includes.IncludeKeepsBuildOutcome | src/KraftHaus/Atomic/Component.php:260-264 | the grafted root's subtree is part of the including tree's pre-order, and grafting does not change whether building the including tree succeeds |

## Left out

- Laravel bootstrap (`ServiceProvider.php`): config loading, view publishing and container singletons. The process-wide registrar is the explicit `Runtime` parameter instead.
- The `Atomic` facade and the `atomic()` helper: both are thin wrappers over `Factory::make`. `include` calls the modelled `Factory.Make` directly.
- The validation service's rule language and message generation: these are the `Validator` parameter.
- Blade and `Illuminate\View\View` rendering: this is the template-function parameter. The context passed to a template is the component (with its props) or the entity (with its tree and builder).
- PHP reflection: `new $class`, `$this->{$action}` and magic methods are explicit operations on parameter tables.
- Components.Call: models only the `__call` path. In PHP a call whose name matches a declared Component method (compared case-insensitively) reaches that method instead; names here are compared case-sensitively.
- Components.Construct (and `Components.AddEntries`, `Components.ConstructWithEntries`): the child names of a children array are assumed distinct, as the keys of a PHP array are. PHP collapses a repeated key into one entry, which holds the later value at the first key's position. The model's `seq<ChildEntry>` accepts a repeated name and adds one child per occurrence.
- Closure-valued children: `Children.Callback` is an arbitrary function from the new component to a result.
- Class constructors that a component or entity subclass overrides are not modelled. Nor are subclass overrides of the entity's `$view` and `$data` defaults.
- The parent back-reference is not a field. It is implied by the path handles of `ComponentPaths`.
- Props and data are stored as maps, so their insertion order is not modelled. The core depends on order only where it loops over an input array (`setProps`, the children array, bulk registration, `with(array)`), and those inputs are ordered sequences (`Assoc` for props, data and registrations, `seq<ChildEntry>` for the children array).
- Integer and numeric-string keys are left out: keys are assumed to be non-numeric strings. PHP would store such keys as integers, and `array_merge` would renumber them.
- Type errors from wrongly typed arguments (a non-array props entry, a non-string class) cannot occur in the typed model.
- Entities.Get and Components.Get: return `None` for a missing key. PHP's undefined-index notice, after which the value is null, is not modelled.
- Messages of PHP engine errors (`ClassNotFound`, `NullReturn`, an entity's missing action method) are given in a simplified form; their exact wording depends on the PHP version.
- An action method that changes its own entity (for example by calling `with` on `$this`) is not modelled. An action only returns the tree it built.

=== FILE: builder.dfy ===
/** The builder: a pre-order walk that validates every node's props against
    its class's rules and stops at the first node that fails. */
module Builders {
  import opened Wrappers
  import opened Errors
  import opened Components
  import PhpArrays

  /** The validation service: whether props satisfy rules, and the messages it
      reports when they do not. Its rule language is not modelled. */
  datatype Validator = Validator(passes: (Props, Rules) -> bool, messages: (Props, Rules) -> seq<string>)

  /** A builder remembers the entity (class and action) it was created for. */
  datatype Builder = Builder(entityClass: string, entityAction: string)

  predicate Passes(v: Validator, c: Component) {
    v.passes(c.props, c.rules)
  }

  /** Every node of a tree in pre-order: a node, then each child's subtree in order. */
  function PreOrder(c: Component): seq<Component>
    decreases c
  {
    [c] + PreOrderAll(c.children)
  }

  function PreOrderAll(cs: seq<Component>): seq<Component>
    decreases cs
  {
    if |cs| == 0 then [] else PreOrder(cs[0]) + PreOrderAll(cs[1..])
  }

  /** Index of the first node of s that fails validation, or |s| if none does. */
  function FirstInvalid(v: Validator, s: seq<Component>): (k: nat)
    ensures k <= |s|
    ensures forall j :: 0 <= j < k ==> Passes(v, s[j])
    ensures k < |s| ==> !Passes(v, s[k])
    decreases |s|
  {
    if |s| == 0 then 0
    else if !Passes(v, s[0]) then 0
    else 1 + FirstInvalid(v, s[1..])
  }

  /** What a walk did: the nodes it validated, in order, and the node whose
      validation threw, if any. */
  datatype Trace = Trace(visited: seq<Component>, failed: Option<Component>)

  /** `build($component)`: validate the node, then `build` each child in order;
      a failing validation throws and ends the whole walk. */
  function Walk(v: Validator, c: Component): Trace
    decreases c
  {
    if !Passes(v, c) then Trace([c], Some(c))
    else
      var t := WalkAll(v, c.children);
      Trace([c] + t.visited, t.failed)
  }

  /** The `foreach` over the children in `build`. */
  function WalkAll(v: Validator, cs: seq<Component>): Trace
    decreases cs
  {
    if |cs| == 0 then Trace([], None)
    else
      var t := Walk(v, cs[0]);
      if t.failed.Some? then t
      else
        var u := WalkAll(v, cs[1..]);
        Trace(t.visited + u.visited, u.failed)
  }

  /** A fail-fast pass over a sequence of nodes: the prefix up to and including
      the first failing node, and that node. */
  function FailFast(v: Validator, s: seq<Component>): Trace {
    var k := FirstInvalid(v, s);
    if k < |s| then Trace(s[..k + 1], Some(s[k])) else Trace(s, None)
  }

  lemma {:induction false} FirstInvalidConcat(v: Validator, a: seq<Component>, b: seq<Component>)
    ensures FirstInvalid(v, a + b) ==
              if FirstInvalid(v, a) < |a| then FirstInvalid(v, a) else |a| + FirstInvalid(v, b)
    decreases |a|
  {
    if |a| > 0 {
      assert (a + b)[0] == a[0];
      assert (a + b)[1..] == a[1..] + b;
      FirstInvalidConcat(v, a[1..], b);
    } else {
      assert a + b == b;
    }
  }

  lemma FailFastConcat(v: Validator, a: seq<Component>, b: seq<Component>)
    ensures FailFast(v, a).failed.Some? ==> FailFast(v, a + b) == FailFast(v, a)
    ensures FailFast(v, a).failed.None? ==>
              FailFast(v, a + b) == Trace(a + FailFast(v, b).visited, FailFast(v, b).failed)
  {
    FirstInvalidConcat(v, a, b);
    var k := FirstInvalid(v, a);
    if k < |a| {
      assert (a + b)[..k + 1] == a[..k + 1];
    } else {
      var m := FirstInvalid(v, b);
      if m < |b| {
        assert (a + b)[..|a| + m + 1] == a + b[..m + 1];
      }
    }
  }

  /** The walk validates exactly the pre-order prefix ending at the first
      failing node, and it fails at that node; with no failing node it
      validates every node in pre-order. */
  lemma {:induction false} WalkIsFailFastPreOrder(v: Validator, c: Component)
    ensures Walk(v, c) == FailFast(v, PreOrder(c))
    decreases c
  {
    WalkAllIsFailFastPreOrder(v, c.children);
    FailFastConcat(v, [c], PreOrderAll(c.children));
    if !Passes(v, c) {
      assert PreOrder(c)[..1] == [c];
    }
  }

  lemma {:induction false} WalkAllIsFailFastPreOrder(v: Validator, cs: seq<Component>)
    ensures WalkAll(v, cs) == FailFast(v, PreOrderAll(cs))
    decreases cs
  {
    if |cs| > 0 {
      WalkIsFailFastPreOrder(v, cs[0]);
      WalkAllIsFailFastPreOrder(v, cs[1..]);
      FailFastConcat(v, PreOrder(cs[0]), PreOrderAll(cs[1..]));
    }
  }

  /** `build`: returns the builder itself when every node passes, and otherwise
      throws PropValidationException with the messages of the first node, in
      pre-order, that fails. */
  function Build(v: Validator, b: Builder, c: Component): (r: Result<Builder, Error>)
    ensures r.Success? <==> forall i :: 0 <= i < |PreOrder(c)| ==> Passes(v, PreOrder(c)[i])
    ensures r.Success? ==> r.value == b
    ensures r.Failure? ==>
              var bad := PreOrder(c)[FirstInvalid(v, PreOrder(c))];
              r.error == PropValidation(v.messages(bad.props, bad.rules))
  {
    WalkIsFailFastPreOrder(v, c);
    var t := Walk(v, c);
    match t.failed
    case None => Success(b)
    case Some(bad) => Failure(PropValidation(v.messages(bad.props, bad.rules)))
  }

  /** A node is validated before any node of its children's subtrees, and the
      children's subtrees follow one another in child order. */
  lemma {:induction false} PreOrderOfChildren(c: Component, i: nat)
    requires i < |c.children|
    ensures PreOrder(c)[0] == c
    ensures var before := 1 + |PreOrderAll(c.children[..i])|;
            && before + |PreOrder(c.children[i])| <= |PreOrder(c)|
            && PreOrder(c)[before..before + |PreOrder(c.children[i])|] == PreOrder(c.children[i])
  {
    PreOrderAllSplit(c.children[..i], c.children[i..]);
    assert c.children[..i] + c.children[i..] == c.children;
    assert c.children[i..][0] == c.children[i];
  }

  lemma {:induction false} PreOrderAllSplit(a: seq<Component>, b: seq<Component>)
    ensures PreOrderAll(a + b) == PreOrderAll(a) + PreOrderAll(b)
    decreases |a|
  {
    if |a| > 0 {
      assert (a + b)[0] == a[0];
      assert (a + b)[1..] == a[1..] + b;
      PreOrderAllSplit(a[1..], b);
    } else {
      assert a + b == b;
    }
  }

  /** Appending a child appends that child's subtree to the pre-order; the
      node itself still comes first, and the nodes below it are unchanged. */
  lemma PreOrderAfterAppend(c: Component, child: Component)
    ensures var c' := c.(children := c.children + [child]);
            PreOrder(c') == [c'] + PreOrder(c)[1..] + PreOrder(child)
  {
    var c' := c.(children := c.children + [child]);
    PreOrderAllSplit(c.children, [child]);
    assert [child][1..] == [];
    assert PreOrderAll([child]) == PreOrder(child);
    calc {
      PreOrder(c');
      [c'] + PreOrderAll(c.children + [child]);
      [c'] + (PreOrderAll(c.children) + PreOrder(child));
      { assert PreOrder(c)[1..] == PreOrderAll(c.children); }
      [c'] + PreOrder(c)[1..] + PreOrder(child);
    }
  }

  /** A node is invalid when it has a `bad` prop. */
  const NoBadProp: Validator :=
    Validator((props: Props, rules: Rules) => "bad" !in props, (props: Props, rules: Rules) => ["bad"])

  /** Fail-fast in child order: with the invalid child first the walk stops
      there; with the valid child first it validates that child's whole
      subtree before reaching the invalid one. */
  lemma FailFastExample()
    ensures var leaf := Component("G", map[], map[], Composite, []);
            var a := Component("A", map["bad" := PhpArrays.Null], map[], Composite, []);
            var b := Component("B", map[], map[], Composite, [leaf]);
            var ab := Component("R", map[], map[], Composite, [a, b]);
            var ba := Component("R", map[], map[], Composite, [b, a]);
            && Walk(NoBadProp, ab) == Trace([ab, a], Some(a))
            && Walk(NoBadProp, ba) == Trace([ba, b, leaf, a], Some(a))
  {
    var leaf := Component("G", map[], map[], Composite, []);
    var a := Component("A", map["bad" := PhpArrays.Null], map[], Composite, []);
    var b := Component("B", map[], map[], Composite, [leaf]);
    var ab := Component("R", map[], map[], Composite, [a, b]);
    var ba := Component("R", map[], map[], Composite, [b, a]);
    assert Passes(NoBadProp, leaf) && Passes(NoBadProp, b) && Passes(NoBadProp, ab) && Passes(NoBadProp, ba);
    assert !Passes(NoBadProp, a);
    assert Walk(NoBadProp, a) == Trace([a], Some(a));
    assert WalkAll(NoBadProp, []) == Trace([], None);
    assert Walk(NoBadProp, leaf) == Trace([leaf], None);
    assert [leaf][1..] == [];
    assert WalkAll(NoBadProp, [leaf]) == Trace([leaf], None);
    assert Walk(NoBadProp, b) == Trace([b, leaf], None);
    assert [a][1..] == [];
    assert WalkAll(NoBadProp, [a]) == Trace([a], Some(a));
    assert [b, a][1..] == [a];
    assert WalkAll(NoBadProp, [b, a]) == Trace([b, leaf, a], Some(a));
    assert WalkAll(NoBadProp, [a, b]) == Trace([a], Some(a));
  }
}

=== FILE: component.dfy ===
/** A component: one node of the view tree, with a property map, an ordered
    list of children and the validation rules and view of its class. */
module Components {
  import opened Wrappers
  import opened Errors
  import opened PhpArrays
  import Registrar

  /** The `$props` of a component. */
  type Props = map<string, Value>

  /** The `$validate` rules of a component class: property name to rule text. */
  type Rules = map<string, string>

  /** What a class's `view()` returns: the inherited default concatenates the
      children's renders; an override may return a template view by name. */
  datatype ViewKind = Composite | Template(name: string)

  /** What a component class declares: default `$props`, `$validate` and `view()`. */
  datatype ClassInfo = ClassInfo(defaults: Props, rules: Rules, view: ViewKind)

  /** The base `Component` class declares nothing. */
  const BaseInfo: ClassInfo := ClassInfo(map[], map[], Composite)

  /** A node. Its parent is not stored: a node is reached from the root by a
      path of child indexes, and its parent is the node one index up. */
  datatype Component = Component(
    cls: string,
    props: Props,
    rules: Rules,
    view: ViewKind,
    children: seq<Component>)

  /** The constructor's `$arguments` array: an optional `'props'` entry and an
      optional `'children'` entry. */
  datatype Args = Args(props: Option<Assoc<Value>>, children: Children)

  /** The `'children'` entry: absent, a closure run on the new component, or an
      array mapping child names to the child's own constructor arguments. */
  datatype Children =
    | NoChildren
    | Callback(run: Component -> Result<Component, Error>)
    | Entries(entries: seq<ChildEntry>)

  datatype ChildEntry = ChildEntry(name: string, args: Args)

  /** `[]`: no props, no children. */
  const NoArgs: Args := Args(None, NoChildren)

  /** What `addChild` consults: the registrar, and the classes PHP can load. */
  datatype Runtime = Runtime(registrar: Registrar.Registry, classes: string -> Option<ClassInfo>)

  /** An instance of a class before its constructor body runs. */
  function Blank(cls: string, info: ClassInfo): Component {
    Component(cls, info.defaults, info.rules, info.view, [])
  }

  /** `new Component`: the empty root an entity action is handed. */
  function NewComponent(): (c: Component)
    ensures c.cls == ComponentClass && c.view == Composite
    ensures c.props == map[] && c.rules == map[] && c.children == []
  {
    Blank(ComponentClass, BaseInfo)
  }

  // ---------------------------------------------------------------------
  // Properties

  /** `get($prop)`: `None` is PHP's undefined-index case, which yields null. */
  function Get(c: Component, key: string): Option<Value> {
    if key in c.props then Some(c.props[key]) else None
  }

  /** `set($prop, $value)`: writes one property and returns the same component. */
  function Set(c: Component, key: string, value: Value): (r: Component)
    ensures Get(r, key) == Some(value)
    ensures forall k :: k != key ==> Get(r, k) == Get(c, k)
    ensures r.children == c.children && r.cls == c.cls && r.rules == c.rules && r.view == c.view
  {
    c.(props := c.props[key := value])
  }

  /** `has($prop)`: PHP `isset`, so a property set to null is not there. */
  predicate Has(c: Component, key: string) {
    key in c.props && c.props[key] != Null
  }

  /** `setProps($props)`: calls `set` for each entry in array order. */
  function SetProps(c: Component, props: Assoc<Value>): (r: Component)
    ensures r.props == c.props + ToMap(props)
    ensures r.children == c.children && r.cls == c.cls && r.rules == c.rules && r.view == c.view
  {
    c.(props := Merge(c.props, props))
  }

  /** After `set(k, v)`, `get(k)` is v and `has(k)` holds exactly when v is not null. */
  lemma SetThenGet(c: Component, key: string, value: Value)
    ensures Get(Set(c, key, value), key) == Some(value)
    ensures Has(Set(c, key, value), key) <==> value != Null
  {
  }

  /** `set(k, v)` leaves whether any other property is set unchanged. */
  lemma SetFrame(c: Component, key: string, value: Value, other: string)
    requires other != key
    ensures Has(Set(c, key, value), other) <==> Has(c, other)
  {
  }

  /** Each property named in `setProps` takes the value of its last entry; the
      others keep theirs. */
  lemma SetPropsValues(c: Component, props: Assoc<Value>, i: nat, other: string)
    requires i < |props|
    requires forall j :: i < j < |props| ==> props[j].0 != props[i].0
    requires forall j :: 0 <= j < |props| ==> props[j].0 != other
    ensures Get(SetProps(c, props), props[i].0) == Some(props[i].1)
    ensures Get(SetProps(c, props), other) == Get(c, other)
  {
    ToMapLast(props, i);
    ToMapKeys(props);
  }

  // ---------------------------------------------------------------------
  // Construction and children

  /** Size of constructor arguments, counting nested child arguments. */
  function ArgsSize(a: Args): nat
    decreases a
  {
    1 + match a.children
        case Entries(es) => EntriesSize(es)
        case _ => 0
  }

  function EntriesSize(es: seq<ChildEntry>): nat
    decreases es
  {
    if |es| == 0 then 0 else ArgsSize(es[0].args) + 1 + EntriesSize(es[1..])
  }

  /** `new $class($arguments)`: sets the props first, then the children, either
      by running the closure or by adding one child per entry in array order. */
  function Construct(rt: Runtime, cls: string, args: Args): (r: Result<Component, Error>)
    ensures rt.classes(cls).None? ==> r == Failure(ClassNotFound(cls))
    ensures r.Success? ==> rt.classes(cls).Some?
    ensures r.Success? && !args.children.Callback? ==>
              var info := rt.classes(cls).value;
              && r.value.cls == cls && r.value.rules == info.rules && r.value.view == info.view
              && r.value.props == info.defaults + (if args.props.Some? then ToMap(args.props.value) else map[])
    ensures r.Success? && args.children.NoChildren? ==> r.value.children == []
    ensures r.Success? && args.children.Entries? ==> |r.value.children| == |args.children.entries|
    ensures rt.classes(cls).Some? && args.children.NoChildren? ==> r.Success?
    decreases ArgsSize(args), 1
  {
    match rt.classes(cls)
    case None => Failure(ClassNotFound(cls))
    case Some(info) =>
      var blank := Blank(cls, info);
      var c := if args.props.Some? then SetProps(blank, args.props.value) else blank;
      match args.children
      case NoChildren => Success(c)
      case Callback(run) => run(c)
      case Entries(es) => AddEntries(rt, c, es)
  }

  /** The `foreach` over a children array: `addChild` for each entry in order. */
  function AddEntries(rt: Runtime, c: Component, es: seq<ChildEntry>): (r: Result<Component, Error>)
    ensures r.Success? ==> r.value == c.(children := r.value.children)
    ensures r.Success? ==> |r.value.children| == |c.children| + |es|
    ensures r.Success? ==> r.value.children[..|c.children|] == c.children
    decreases EntriesSize(es), 0
  {
    if |es| == 0 then Success(c)
    else
      match AddChild(rt, c, es[0].name, es[0].args)
      case Failure(e) => Failure(e)
      case Success(pair) => AddEntries(rt, pair.0, es[1..])
  }

  /** Resolve a name in the registrar and construct the class it names. */
  function Spawn(rt: Runtime, name: string, args: Args): (r: Result<Component, Error>)
    ensures !Registrar.Has(rt.registrar, name) ==> r == Failure(UnknownComponent(name))
    ensures Registrar.Get(rt.registrar, name).Failure? ==> r == Failure(Registrar.Get(rt.registrar, name).error)
    ensures Registrar.Get(rt.registrar, name).Success? ==> r == Construct(rt, Registrar.Get(rt.registrar, name).value, args)
    decreases ArgsSize(args), 2
  {
    var cls :- Registrar.Get(rt.registrar, name);
    Construct(rt, cls, args)
  }

  /** `addChild($name, $arguments)`: appends the new child and returns it (not
      the receiver). A name the registrar lacks throws before anything is
      appended. The first component of the pair is the receiver afterwards. */
  function AddChild(rt: Runtime, c: Component, name: string, args: Args): (r: Result<(Component, Component), Error>)
    ensures !Registrar.Has(rt.registrar, name) ==> r == Failure(UnknownComponent(name))
    ensures r.Success? ==> r.value.0 == c.(children := c.children + [r.value.1])
    ensures r.Success? <==> Spawn(rt, name, args).Success?
    ensures r.Success? ==> Spawn(rt, name, args) == Success(r.value.1)
    decreases ArgsSize(args), 3
  {
    var child :- Spawn(rt, name, args);
    Success((c.(children := c.children + [child]), child))
  }

  /** A registered, loadable name with a props entry and no children entry
      always yields a new childless child, seeded with the class defaults
      overridden by those props, as the receiver's last child. */
  lemma AddChildSeedsProps(rt: Runtime, c: Component, name: string, cls: string, props: PhpArrays.Assoc<Value>)
    requires Registrar.Get(rt.registrar, name) == Success(cls) && rt.classes(cls).Some?
    ensures var r := AddChild(rt, c, name, Args(Some(props), NoChildren));
            && r.Success?
            && r.value.1.cls == cls && r.value.1.children == []
            && r.value.1.props == rt.classes(cls).value.defaults + ToMap(props)
            && r.value.0.children == c.children + [r.value.1]
  {
    var args := Args(Some(props), NoChildren);
    var info := rt.classes(cls).value;
    assert Construct(rt, cls, args) == Success(SetProps(Blank(cls, info), props));
    assert Spawn(rt, name, args) == Construct(rt, cls, args);
  }

  /** `isset($arguments[0]) ? $arguments[0] : []`. */
  function FirstArgument(arguments: seq<Option<Args>>): Args {
    if |arguments| > 0 && arguments[0].Some? then arguments[0].value else NoArgs
  }

  /** `__call($method, $arguments)`: a call of an undeclared method adds a child
      named by the method, after checking that the registrar has that name. */
  function Call(rt: Runtime, c: Component, name: string, arguments: seq<Option<Args>>): (r: Result<(Component, Component), Error>)
    ensures !Registrar.Has(rt.registrar, name) ==> r == Failure(UndefinedMethod(ComponentClass, name))
    ensures r.Success? ==> r.value.0 == c.(children := c.children + [r.value.1])
  {
    if !Registrar.Has(rt.registrar, name) then Failure(UndefinedMethod(ComponentClass, name))
    else AddChild(rt, c, name, FirstArgument(arguments))
  }

  /** A dynamic call on a registered name is `addChild` with the first argument,
      or with no arguments when there is none or it is null. */
  lemma CallIsAddChild(rt: Runtime, c: Component, name: string, arguments: seq<Option<Args>>)
    requires Registrar.Has(rt.registrar, name)
    ensures |arguments| == 0 ==> Call(rt, c, name, arguments) == AddChild(rt, c, name, NoArgs)
    ensures |arguments| > 0 && arguments[0].Some? ==>
              Call(rt, c, name, arguments) == AddChild(rt, c, name, arguments[0].value)
    ensures |arguments| > 0 && arguments[0].None? ==> Call(rt, c, name, arguments) == AddChild(rt, c, name, NoArgs)
  {
  }

  /** The children array adds one child per entry, in entry order, each built
      as `addChild` builds it; it fails exactly when some entry fails. */
  lemma {:induction false} AddEntriesInOrder(rt: Runtime, c: Component, es: seq<ChildEntry>)
    ensures AddEntries(rt, c, es).Success? <==> forall i :: 0 <= i < |es| ==> Spawn(rt, es[i].name, es[i].args).Success?
    ensures AddEntries(rt, c, es).Success? ==>
              forall i :: 0 <= i < |es| ==>
                Spawn(rt, es[i].name, es[i].args) == Success(AddEntries(rt, c, es).value.children[|c.children| + i])
    decreases |es|
  {
    if |es| > 0 {
      var first := AddChild(rt, c, es[0].name, es[0].args);
      if first.Success? {
        var c' := first.value.0;
        AddEntriesInOrder(rt, c', es[1..]);
        var r := AddEntries(rt, c, es);
        assert r == AddEntries(rt, c', es[1..]);
        forall i | 1 <= i < |es|
          ensures es[i] == es[1..][i - 1]
        {
        }
        if r.Success? {
          assert r.value.children[..|c'.children|] == c'.children;
          assert r.value.children[|c.children|] == c'.children[|c.children|];
        }
      }
    }
  }

  /** Constructing with a children array sets the props first and then adds one
      child per entry, in entry order. */
  lemma ConstructWithEntries(rt: Runtime, cls: string, props: Option<Assoc<Value>>, es: seq<ChildEntry>)
    requires rt.classes(cls).Some?
    ensures var r := Construct(rt, cls, Args(props, Entries(es)));
            && (r.Success? <==> forall i :: 0 <= i < |es| ==> Spawn(rt, es[i].name, es[i].args).Success?)
            && (r.Success? ==> forall i :: 0 <= i < |es| ==> Spawn(rt, es[i].name, es[i].args) == Success(r.value.children[i]))
  {
    var info := rt.classes(cls).value;
    var blank := Blank(cls, info);
    var c := if props.Some? then SetProps(blank, props.value) else blank;
    AddEntriesInOrder(rt, c, es);
  }

  // ---------------------------------------------------------------------
  // Rendering

  /** `render()`: a template view is rendered by the template engine `tpl`,
      given the component (and through it its props); the default view is the
      concatenation of the children's renders. */
  function Render(tpl: (string, Component) -> string, c: Component): string
    decreases c
  {
    match c.view
    case Template(name) => tpl(name, c)
    case Composite => RenderAll(tpl, c.children)
  }

  /** The renders of a list of components, concatenated in order. */
  function RenderAll(tpl: (string, Component) -> string, cs: seq<Component>): string
    decreases cs
  {
    if |cs| == 0 then "" else Render(tpl, cs[0]) + RenderAll(tpl, cs[1..])
  }

  lemma {:induction false} RenderAllSnoc(tpl: (string, Component) -> string, cs: seq<Component>, c: Component)
    ensures RenderAll(tpl, cs + [c]) == RenderAll(tpl, cs) + Render(tpl, c)
    decreases |cs|
  {
    if |cs| == 0 {
      assert (cs + [c])[1..] == [];
    } else {
      assert (cs + [c])[1..] == cs[1..] + [c];
      RenderAllSnoc(tpl, cs[1..], c);
    }
  }

  /** The default `view()`: appends each child's render to the response, in order. */
  method View(tpl: (string, Component) -> string, c: Component) returns (response: string)
    ensures response == RenderAll(tpl, c.children)
    ensures c.view == Composite ==> response == Render(tpl, c)
  {
    response := "";
    var i := 0;
    while i < |c.children|
      invariant 0 <= i <= |c.children|
      invariant response == RenderAll(tpl, c.children[..i])
    {
      RenderAllSnoc(tpl, c.children[..i], c.children[i]);
      assert c.children[..i + 1] == c.children[..i] + [c.children[i]];
      response := response + Render(tpl, c.children[i]);
      i := i + 1;
    }
    assert c.children[..i] == c.children;
  }

  /** A component with the default view and no children renders to nothing. */
  lemma LeafRendersEmpty(tpl: (string, Component) -> string, c: Component)
    requires c.view == Composite && c.children == []
    ensures Render(tpl, c) == ""
  {
  }

  /** Appending a child to a component with the default view appends that
      child's render to the component's render. */
  lemma RenderAfterAppend(tpl: (string, Component) -> string, c: Component, child: Component)
    requires c.view == Composite
    ensures Render(tpl, c.(children := c.children + [child])) == Render(tpl, c) + Render(tpl, child)
  {
    RenderAllSnoc(tpl, c.children, child);
  }
}

=== FILE: entity.dfy ===
/** An entity: an action name, a data bag, and after a successful execution
    the component tree its action built and the builder that validated it. */
module Entities {
  import opened Wrappers
  import opened Errors
  import opened PhpArrays
  import opened Components
  import opened Builders

  /** The template an entity renders with when `render` is given no view. */
  const DefaultView: string := "atomic::entity"

  /** The entity's `$data`. */
  type Data = map<string, Value>

  /** An action method: given the fresh root and the data, it fills in the
      tree (or throws). */
  type Action = (Component, Data) -> Result<Component, Error>

  /** The application around the core: the entity classes PHP can load, the
      action methods each class declares, and the validation service. */
  datatype Program = Program(
    classes: set<string>,
    actions: (string, string) -> Option<Action>,
    validator: Validator)

  datatype Entity = Entity(
    cls: string,
    action: string,
    data: Data,
    component: Option<Component>,
    builder: Option<Builder>,
    view: string,
    executed: bool)

  /** `new $class($action)`. */
  function New(cls: string, action: string): (e: Entity)
    ensures e.cls == cls && e.action == action
    ensures e.data == map[] && e.component.None? && e.builder.None?
    ensures !e.executed && e.view == DefaultView
  {
    Entity(cls, action, map[], None, None, DefaultView, false)
  }

  /** `__get($prop)`: `None` is PHP's undefined-index case, which yields null. */
  function Get(e: Entity, key: string): Option<Value> {
    if key in e.data then Some(e.data[key]) else None
  }

  /** `__isset($prop)`: PHP `isset`, so an entry holding null is not set. */
  predicate IsSet(e: Entity, key: string) {
    key in e.data && e.data[key] != Null
  }

  /** `with($key, $value)`: stores one entry and returns the same entity. */
  function With(e: Entity, key: string, value: Value): (r: Entity)
    ensures Get(r, key) == Some(value)
    ensures IsSet(r, key) <==> value != Null
    ensures forall k :: k != key ==> Get(r, k) == Get(e, k)
    ensures r == e.(data := r.data)
  {
    e.(data := e.data[key := value])
  }

  /** `with([$key => $value, ...])`: `array_merge` with string keys, so the
      given entries win and keys only in the old data are kept. */
  function WithAll(e: Entity, entries: Assoc<Value>): (r: Entity)
    ensures r.data == e.data + ToMap(entries)
    ensures r == e.(data := r.data)
  {
    e.(data := Merge(e.data, entries))
  }

  /** After `with(array)`, each given key holds its last given value, and a key
      not given keeps its old value. */
  lemma WithAllValues(e: Entity, entries: Assoc<Value>, i: nat, other: string)
    requires i < |entries|
    requires forall j :: i < j < |entries| ==> entries[j].0 != entries[i].0
    requires forall j :: 0 <= j < |entries| ==> entries[j].0 != other
    ensures Get(WithAll(e, entries), entries[i].0) == Some(entries[i].1)
    ensures Get(WithAll(e, entries), other) == Get(e, other)
  {
    ToMapLast(entries, i);
    ToMapKeys(entries);
  }

  /** `getComponent()`: its return type is not nullable, so before a
      successful execution it throws a TypeError. */
  function GetComponent(e: Entity): (r: Result<Component, Error>)
    ensures r.Success? <==> e.component.Some?
    ensures r.Success? ==> e.component == Some(r.value)
    ensures r.Failure? ==> r.error == NullReturn("KraftHaus\\Atomic\\Entity::getComponent")
  {
    match e.component
    case Some(c) => Success(c)
    case None => Failure(NullReturn("KraftHaus\\Atomic\\Entity::getComponent"))
  }

  /** `getBuilder()`, likewise. */
  function GetBuilder(e: Entity): (r: Result<Builder, Error>)
    ensures r.Success? <==> e.builder.Some?
    ensures r.Success? ==> e.builder == Some(r.value)
    ensures r.Failure? ==> r.error == NullReturn("KraftHaus\\Atomic\\Entity::getBuilder")
  {
    match e.builder
    case Some(b) => Success(b)
    case None => Failure(NullReturn("KraftHaus\\Atomic\\Entity::getBuilder"))
  }

  /** `execute()`: runs the action on a fresh root with the current data, then
      builds the tree; only if the build returns are the tree, the builder and
      the executed flag stored. It does not look at the executed flag. */
  function Execute(p: Program, e: Entity): (res: (Entity, Outcome<Error>))
    ensures res.1.Fail? ==> res.0 == e
    ensures p.actions(e.cls, e.action).None? ==> res.1 == Fail(UndefinedMethod(e.cls, e.action))
    ensures res.1.Pass? ==>
              && p.actions(e.cls, e.action).Some?
              && res.0.component.Some?
              && p.actions(e.cls, e.action).value(NewComponent(), e.data) == Success(res.0.component.value)
              && res.0 == e.(component := res.0.component, builder := Some(Builder(e.cls, e.action)), executed := true)
    ensures res.1.Pass? ==>
              var tree := res.0.component.value;
              forall i :: 0 <= i < |PreOrder(tree)| ==> Passes(p.validator, PreOrder(tree)[i])
    ensures p.actions(e.cls, e.action).Some? ==>
              var out := p.actions(e.cls, e.action).value(NewComponent(), e.data);
              && (out.Failure? ==> res == (e, Fail(out.error)))
              && (out.Success? ==> (res.1.Pass? <==> Build(p.validator, Builder(e.cls, e.action), out.value).Success?))
  {
    match p.actions(e.cls, e.action)
    case None => (e, Fail(UndefinedMethod(e.cls, e.action)))
    case Some(act) =>
      match act(NewComponent(), e.data)
      case Failure(err) => (e, Fail(err))
      case Success(tree) =>
        match Build(p.validator, Builder(e.cls, e.action), tree)
        case Failure(err) => (e, Fail(err))
        case Success(b) => (e.(component := Some(tree), builder := Some(b), executed := true), Pass)
  }

  /** After a successful execution `getComponent()` returns the built root. */
  lemma ExecuteThenGetComponent(p: Program, e: Entity)
    requires Execute(p, e).1.Pass?
    ensures var e' := Execute(p, e).0;
            e'.executed && GetComponent(e').Success?
            && p.actions(e.cls, e.action).value(NewComponent(), e.data) == Success(GetComponent(e').value)
  {
  }

  /** A failed build leaves an entity's tree, builder and flag as they were,
      and reports the messages of the first node in pre-order that fails. */
  lemma ExecuteBuildFailure(p: Program, e: Entity, tree: Component)
    requires p.actions(e.cls, e.action).Some?
    requires p.actions(e.cls, e.action).value(NewComponent(), e.data) == Success(tree)
    requires exists i :: 0 <= i < |PreOrder(tree)| && !Passes(p.validator, PreOrder(tree)[i])
    ensures var bad := PreOrder(tree)[FirstInvalid(p.validator, PreOrder(tree))];
            Execute(p, e) == (e, Fail(PropValidation(p.validator.messages(bad.props, bad.rules))))
  {
  }

  /** Execution does not consult the executed flag: an executed entity runs its
      action and its build again, with the same outcome as a fresh one. */
  lemma ExecuteIgnoresFlag(p: Program, e: Entity)
    ensures Execute(p, e.(executed := true)).1 == Execute(p, e.(executed := false)).1
    ensures Execute(p, e.(executed := true)).1.Pass? ==>
              Execute(p, e.(executed := true)).0 == Execute(p, e.(executed := false)).0
  {
  }

  /** An action that copies `$data['title']` into the root's props. */
  function CopyTitle(root: Component, data: Data): Result<Component, Error> {
    Success(Set(root, "title", if "title" in data then data["title"] else Null))
  }

  /** Executing twice is not a no-op: data added in between reaches the second
      tree, which replaces the first. */
  lemma ExecuteIsNotIdempotent()
    ensures var p := Program({"Page"}, (c, a) => if a == "show" then Some(CopyTitle) else None,
                              Validator((props, rules) => true, (props, rules) => []));
            var e1 := Execute(p, New("Page", "show")).0;
            var e2 := Execute(p, With(e1, "title", Str("x"))).0;
            && e1.executed && e2.executed
            && e1.component.Some? && e2.component.Some?
            && e1.component != e2.component
  {
    var p := Program({"Page"}, (c, a) => if a == "show" then Some(CopyTitle) else None,
                     Validator((props, rules) => true, (props, rules) => []));
    var e1 := Execute(p, New("Page", "show")).0;
    var e2 := Execute(p, With(e1, "title", Str("x"))).0;
    assert Components.Get(e2.component.value, "title") == Some(Str("x"));
    assert Components.Get(e1.component.value, "title") == Some(Null);
  }

  /** PHP's `! $view`: null, the empty string and "0" are all false. */
  predicate Falsy(view: Option<string>) {
    view.None? || view.value == "" || view.value == "0"
  }

  /** `render($view)`: executes first only when not yet executed, then renders
      the view (the default when none is given) through the template engine
      `tpl`, which sees the entity with its tree and builder. Those are read
      through `getComponent()` and `getBuilder()`, which throw when unset. */
  function RenderEntity(p: Program, tpl: (string, Entity) -> string, e: Entity, view: Option<string>): (res: (Entity, Result<string, Error>))
    ensures e.executed ==> res.0 == e
    ensures !e.executed ==> res.0 == Execute(p, e).0
    ensures !e.executed && Execute(p, e).1.Fail? ==> res.1 == Failure(Execute(p, e).1.error)
    ensures res.1.Success? ==> res.0.executed
    ensures res.1.Success? && Falsy(view) ==> res.1.value == tpl(e.view, res.0)
    ensures res.1.Success? && !Falsy(view) ==> res.1.value == tpl(view.value, res.0)
    ensures res.1.Success? <==>
              || (e.executed && e.component.Some? && e.builder.Some?)
              || (!e.executed && Execute(p, e).1.Pass?)
    ensures e.executed && e.component.None? ==> res.1 == Failure(GetComponent(e).error)
  {
    var (e', out) := if e.executed then (e, Pass) else Execute(p, e);
    if out.Fail? then (e', Failure(out.error))
    else
      match GetComponent(e')
      case Failure(err) => (e', Failure(err))
      case Success(_) =>
        match GetBuilder(e')
        case Failure(err) => (e', Failure(err))
        case Success(_) => (e', Success(tpl(if Falsy(view) then e'.view else view.value, e')))
  }

  /** Rendering a fresh entity without a view executes it and renders the
      default `atomic::entity` template. */
  lemma RenderFreshDefault(p: Program, tpl: (string, Entity) -> string, cls: string, action: string)
    requires Execute(p, New(cls, action)).1.Pass?
    ensures RenderEntity(p, tpl, New(cls, action), None)
         == (Execute(p, New(cls, action)).0, Success(tpl(DefaultView, Execute(p, New(cls, action)).0)))
  {
  }

  /** A second render does not execute again: the entity stays as the first
      render left it, and neither the actions nor the validator are consulted,
      so the outcome is the same under any program. */
  lemma RenderExecutesOnce(p: Program, tpl: (string, Entity) -> string, e: Entity, first: Option<string>, second: Option<string>)
    requires RenderEntity(p, tpl, e, first).1.Success?
    ensures var e' := RenderEntity(p, tpl, e, first).0;
            RenderEntity(p, tpl, e', second).0 == e'
  ensures var e' := RenderEntity(p, tpl, e, first).0;
          forall p2: Program :: RenderEntity(p2, tpl, e', second) == RenderEntity(p, tpl, e', second)
  {
  }
}

=== FILE: errors.dfy ===
/** The exceptions the composition core throws, with the message text each carries. */
module Errors {

  /** Class name of the base component, as PHP's `__CLASS__` spells it inside it. */
  const ComponentClass: string := "KraftHaus\\Atomic\\Component"

  /** Message of the InvalidArgumentException thrown by `Factory::make`. */
  const NoActionMessage: string := "No entity action provided."

  datatype Error =
    /** UnknownComponentException: a name is not in the registrar. */
    | UnknownComponent(name: string)
    /** RuntimeException from `Component::__call`, or PHP's own error when an
        entity has no method named by its action. */
    | UndefinedMethod(cls: string, name: string)
    /** InvalidArgumentException from `Factory::make`. */
    | InvalidArgument(reason: string)
    /** PropValidationException: the validator's messages for one failing node. */
    | PropValidation(messages: seq<string>)
    /** PHP's error for `new $name` when no such class exists. */
    | ClassNotFound(cls: string)
    /** PHP's TypeError when a method declared to return a non-null type returns null. */
    | NullReturn(getter: string)

  /** `implode($sep, $parts)`. */
  function Join(parts: seq<string>, sep: string): string
    decreases |parts|
  {
    if |parts| == 0 then ""
    else if |parts| == 1 then parts[0]
    else parts[0] + sep + Join(parts[1..], sep)
  }

  /** Appending one more message to a non-empty list appends the separator and it. */
  lemma {:induction false} JoinSnoc(parts: seq<string>, p: string, sep: string)
    requires |parts| > 0
    ensures Join(parts + [p], sep) == Join(parts, sep) + sep + p
    decreases |parts|
  {
    if |parts| == 1 {
      assert parts + [p] == [parts[0], p];
      assert (parts + [p])[1..] == [p];
    } else {
      assert (parts + [p])[1..] == parts[1..] + [p];
      JoinSnoc(parts[1..], p, sep);
    }
  }

  /** The exception message the caller sees. */
  function Message(e: Error): (m: string)
    ensures e.UnknownComponent? ==> m == "Unable to find component " + e.name
    ensures e.PropValidation? && |e.messages| == 1 ==> m == e.messages[0]
    ensures e.PropValidation? && |e.messages| == 0 ==> m == ""
  {
    match e
    case UnknownComponent(name) => "Unable to find component " + name
    case UndefinedMethod(cls, name) => "Call to undefined method " + cls + "::" + name + "()"
    case InvalidArgument(reason) => reason
    case PropValidation(messages) => Join(messages, ", ")
    case ClassNotFound(cls) => "Class \"" + cls + "\" not found"
    case NullReturn(getter) => getter + "(): Return value must not be null"
  }

  /** The message of a validation failure lists every validator message, in
      order, separated by a comma and a space. */
  lemma {:induction false} PropValidationMessage(messages: seq<string>, last: string)
    requires |messages| > 0
    ensures Message(PropValidation(messages + [last]))
         == Message(PropValidation(messages)) + ", " + last
  {
    JoinSnoc(messages, last, ", ");
  }
}

=== FILE: factory.dfy ===
/** The factory: turns an entity reference into a new, unexecuted entity. */
module Factory {
  import opened Wrappers
  import opened Errors
  import Entities

  /** `explode('@', $s)`: the pieces between the `@` separators. */
  function Explode(s: string): (parts: seq<string>)
    ensures |parts| >= 1
    decreases |s|
  {
    if |s| == 0 then [""]
    else
      var rest := Explode(s[1..]);
      if s[0] == '@' then [""] + rest else [[s[0]] + rest[0]] + rest[1..]
  }

  /** `implode('@', $parts)`. */
  function Implode(parts: seq<string>): string
    requires |parts| >= 1
    decreases |parts|
  {
    if |parts| == 1 then parts[0] else parts[0] + "@" + Implode(parts[1..])
  }

  /** No piece contains the separator. */
  lemma {:induction false} ExplodePiecesHaveNoSeparator(s: string)
    ensures forall i :: 0 <= i < |Explode(s)| ==> '@' !in Explode(s)[i]
    decreases |s|
  {
    if |s| > 0 {
      ExplodePiecesHaveNoSeparator(s[1..]);
    }
  }

  /** Joining the pieces with `@` gives back the string. */
  lemma {:induction false} ImplodeExplode(s: string)
    ensures Implode(Explode(s)) == s
    decreases |s|
  {
    if |s| > 0 {
      var rest := Explode(s[1..]);
      ImplodeExplode(s[1..]);
      if s[0] == '@' {
        assert ([""] + rest)[1..] == rest;
        assert s == [s[0]] + s[1..];
      } else {
        var parts := [[s[0]] + rest[0]] + rest[1..];
        if |rest| == 1 {
          assert s == [s[0]] + s[1..];
        } else {
          assert parts[1..] == rest[1..];
          assert Implode(rest) == rest[0] + "@" + Implode(rest[1..]);
          assert s == [s[0]] + s[1..];
        }
      }
    }
  }

  /** Splitting pieces that have no `@` after joining them gives the pieces back. */
  lemma {:induction false} ExplodeImplode(parts: seq<string>)
    requires |parts| >= 1
    requires forall i :: 0 <= i < |parts| ==> '@' !in parts[i]
    ensures Explode(Implode(parts)) == parts
    decreases |parts|
  {
    if |parts| == 1 {
      ExplodeNoSeparator(parts[0]);
    } else {
      ExplodeImplode(parts[1..]);
      ExplodeWithPrefix(parts[0], Implode(parts[1..]));
      assert [parts[0]] + parts[1..] == parts;
    }
  }

  /** A string without `@` is a single piece. */
  lemma {:induction false} ExplodeNoSeparator(s: string)
    requires '@' !in s
    ensures Explode(s) == [s]
    decreases |s|
  {
    if |s| > 0 {
      assert '@' !in s[1..] by {
        forall j | 0 <= j < |s[1..]| ensures s[1..][j] != '@' {
          assert s[1..][j] == s[j + 1];
        }
      }
      ExplodeNoSeparator(s[1..]);
      assert [s[0]] + s[1..] == s;
    }
  }

  /** The first piece of `head@tail` is head when head has no `@`. */
  lemma {:induction false} ExplodeWithPrefix(head: string, tail: string)
    requires '@' !in head
    ensures Explode(head + "@" + tail) == [head] + Explode(tail)
    decreases |head|
  {
    var s := head + "@" + tail;
    if |head| == 0 {
      assert s == "@" + tail;
      assert s[1..] == tail;
    } else {
      assert s[1..] == head[1..] + "@" + tail;
      assert '@' !in head[1..] by {
        forall j | 0 <= j < |head[1..]| ensures head[1..][j] != '@' {
          assert head[1..][j] == head[j + 1];
        }
      }
      ExplodeWithPrefix(head[1..], tail);
      assert [head[0]] + head[1..] == head;
    }
  }

  /** `make($entity, $action)`: an explicit action is taken as given and the
      reference is the class name verbatim; otherwise the reference must
      contain `@`, the class is the text before the first `@` and the action
      the piece after it (further pieces are dropped by `list`). The class
      must be loadable; the entity comes back fresh and unexecuted. */
  function Make(classes: set<string>, ref: string, action: Option<string>): (r: Result<Entities.Entity, Error>)
    ensures action.None? && '@' !in ref ==> r == Failure(InvalidArgument(NoActionMessage))
    ensures action.Some? ==> r == if ref in classes then Success(Entities.New(ref, action.value)) else Failure(ClassNotFound(ref))
    ensures action.None? && '@' in ref ==> (r.Success? <==> Explode(ref)[0] in classes)
    ensures r.Success? ==> r.value.cls in classes && !r.value.executed && r.value.component.None?
    ensures r.Success? ==> r.value == Entities.New(r.value.cls, r.value.action)
  {
    var (cls, act) :-
      if action.Some? then Success((ref, action.value))
      else if '@' !in ref then Failure(InvalidArgument(NoActionMessage))
      else Split(ref);
    if cls in classes then Success(Entities.New(cls, act))
    else Failure(ClassNotFound(cls))
  }

  /** `list($entity, $action) = explode('@', $ref)` for a reference with an `@`. */
  function Split(ref: string): (r: Result<(string, string), Error>)
    requires '@' in ref
    ensures r.Success?
  {
    var parts := Explode(ref);
    if |parts| >= 2 then Success((parts[0], parts[1]))
    else
      ExplodeNoSeparatorInverse(ref);
      assert false;
      Failure(InvalidArgument(NoActionMessage))
  }

  /** A string that explodes into one piece has no `@`. */
  lemma ExplodeNoSeparatorInverse(s: string)
    requires |Explode(s)| == 1
    ensures '@' !in s
  {
    ImplodeExplode(s);
    ExplodePiecesHaveNoSeparator(s);
  }

  /** `"T@a"` with no other `@` makes an entity of class T bound to action a. */
  lemma MakeTypeAtAction(classes: set<string>, cls: string, act: string)
    requires '@' !in cls && '@' !in act && cls in classes
    ensures Make(classes, cls + "@" + act, None) == Success(Entities.New(cls, act))
  {
    ExplodeImplode([cls, act]);
    assert Implode([cls, act]) == cls + "@" + act;
  }

  /** With several `@`, the class is the text before the first and the action
      the text between the first and the second; the rest is ignored. */
  lemma MakeDropsRest(classes: set<string>, cls: string, act: string, rest: string)
    requires '@' !in cls && '@' !in act && cls in classes
    ensures Make(classes, cls + "@" + act + "@" + rest, None) == Success(Entities.New(cls, act))
  {
    ExplodeWithPrefix(cls, act + "@" + rest);
    ExplodeWithPrefix(act, rest);
    assert cls + "@" + act + "@" + rest == cls + "@" + (act + "@" + rest);
  }

  /** With an explicit action the reference is not split, even if it has an `@`. */
  lemma MakeExplicitActionVerbatim(classes: set<string>, ref: string, act: string)
    requires ref in classes
    ensures Make(classes, ref, Some(act)) == Success(Entities.New(ref, act))
    ensures Make(classes, ref, Some(act)).value.cls == ref
  {
  }
}

=== FILE: include.dfy ===
/** `Component::include`: run another entity to completion and graft its root
    under a component. */
module Includes {
  import opened Wrappers
  import opened Errors
  import opened Components
  import opened Builders
  import Entities
  import Factory

  /** `include($entity, $action)`: make the entity through the factory,
      execute it, append its built root to this component's children and
      return that root. Any failure on the way is passed on and nothing is
      appended. */
  function Include(p: Entities.Program, c: Component, ref: string, action: Option<string>): (r: Result<(Component, Component), Error>)
    ensures Factory.Make(p.classes, ref, action).Failure? ==> r == Failure(Factory.Make(p.classes, ref, action).error)
    ensures r.Success? ==> r.value.0 == c.(children := c.children + [r.value.1])
    ensures r.Success? ==>
              var e := Factory.Make(p.classes, ref, action).value;
              && Entities.Execute(p, e).1.Pass?
              && Entities.Execute(p, e).0.component == Some(r.value.1)
    ensures r.Success? ==>
              forall i :: 0 <= i < |PreOrder(r.value.1)| ==> Passes(p.validator, PreOrder(r.value.1)[i])
    ensures Factory.Make(p.classes, ref, action).Success? ==>
              var run := Entities.Execute(p, Factory.Make(p.classes, ref, action).value).1;
              && (r.Success? <==> run.Pass?)
              && (run.Fail? ==> r == Failure(run.error))
  {
    var e :- Factory.Make(p.classes, ref, action);
    var (e', out) := Entities.Execute(p, e);
    if out.Fail? then Failure(out.error)
    else
      var root := e'.component.value;
      Success((c.(children := c.children + [root]), root))
  }

  /** The grafted root is validated again when the including tree is built,
      and since it already passed, grafting does not change whether that
      build succeeds. */
  lemma IncludeKeepsBuildOutcome(p: Entities.Program, c: Component, ref: string, action: Option<string>, b: Builder)
    requires Include(p, c, ref, action).Success?
    ensures var (c', graft) := Include(p, c, ref, action).value;
            && PreOrder(c') == [c'] + PreOrder(c)[1..] + PreOrder(graft)
            && (Build(p.validator, b, c').Success? <==> Build(p.validator, b, c).Success?)
  {
    var (c', graft) := Include(p, c, ref, action).value;
    var v := p.validator;
    PreOrderAfterAppend(c, graft);
    var before := PreOrder(c);
    var after := PreOrder(c');
    assert Passes(v, c') == Passes(v, c);
    if forall i :: 0 <= i < |before| ==> Passes(v, before[i]) {
      forall i | 0 <= i < |after| ensures Passes(v, after[i]) {
        if i == 0 {
          assert before[0] == c && after[0] == c';
          assert Passes(v, before[0]);
        } else if i < |before| {
          assert after[i] == before[i];
        } else {
          assert after[i] == PreOrder(graft)[i - |before|];
          assert Passes(v, PreOrder(graft)[i - |before|]);
        }
      }
    }
    if forall i :: 0 <= i < |after| ==> Passes(v, after[i]) {
      forall i | 0 <= i < |before| ensures Passes(v, before[i]) {
        if i == 0 {
          assert before[0] == c && after[0] == c';
        } else {
          assert before[i] == after[i];
        }
      }
    }
  }
}

=== FILE: paths.dfy ===
/** Handles on nodes inside a tree. PHP hands back object references, so a
    caller can keep adding children to a node returned by `addChild`; here a
    handle is the path of child indexes from the root, and a node's parent is
    the node at its path without the last index. */
module ComponentPaths {
  import opened Wrappers
  import opened Errors
  import opened Components
  import Registrar

  type Path = seq<nat>

  /** The node a path leads to, if it leads anywhere. */
  function At(c: Component, p: Path): Option<Component>
    decreases |p|
  {
    if |p| == 0 then Some(c)
    else if p[0] < |c.children| then At(c.children[p[0]], p[1..])
    else None
  }

  /** The tree with the node at p replaced by n. */
  function Replace(c: Component, p: Path, n: Component): Component
    requires At(c, p).Some?
    decreases |p|
  {
    if |p| == 0 then n
    else c.(children := c.children[p[0] := Replace(c.children[p[0]], p[1..], n)])
  }

  /** Two paths that part ways: neither leads through the other's node. */
  predicate Diverge(p: Path, q: Path)
    decreases |p|
  {
    |p| > 0 && |q| > 0 && (p[0] != q[0] || Diverge(p[1..], q[1..]))
  }

  /** Following p and then q is following p + q. */
  lemma {:induction false} AtConcat(c: Component, p: Path, q: Path)
    requires At(c, p).Some?
    ensures At(c, p + q) == At(At(c, p).value, q)
    decreases |p|
  {
    if |p| > 0 {
      assert (p + q)[0] == p[0];
      assert (p + q)[1..] == p[1..] + q;
      AtConcat(c.children[p[0]], p[1..], q);
    } else {
      assert p + q == q;
    }
  }

  /** After a replacement the path leads to the new node, and a path that
      diverges from it leads where it led before. */
  lemma {:induction false} ReplaceAt(c: Component, p: Path, n: Component, q: Path)
    requires At(c, p).Some?
    ensures At(Replace(c, p, n), p) == Some(n)
    ensures Diverge(p, q) ==> At(Replace(c, p, n), q) == At(c, q)
    decreases |p|
  {
    if |p| > 0 {
      ReplaceAt(c.children[p[0]], p[1..], n, if |q| > 0 then q[1..] else []);
    }
  }

  /** `addChild` called on the node a handle designates: the tree is updated
      at that node only, and the handle of the new child is returned. */
  function AddChildAt(rt: Runtime, root: Component, p: Path, name: string, args: Args): (r: Result<(Component, Path), Error>)
    requires At(root, p).Some?
    ensures !Registrar.Has(rt.registrar, name) ==> r == Failure(UnknownComponent(name))
    ensures r.Success? <==> AddChild(rt, At(root, p).value, name, args).Success?
    ensures r.Failure? ==> r == Failure(AddChild(rt, At(root, p).value, name, args).error)
    ensures r.Success? ==>
              var (root', q) := r.value;
              var node := At(root, p).value;
              && |q| == |p| + 1 && q[..|p|] == p && q[|p|] == |node.children|
              && At(root', q).Some?
              && AddChild(rt, node, name, args) == Success((node.(children := node.children + [At(root', q).value]), At(root', q).value))
              && At(root', p) == Some(node.(children := node.children + [At(root', q).value]))
    ensures r.Success? ==> forall q :: Diverge(p, q) ==> At(r.value.0, q) == At(root, q)
  {
    var node := At(root, p).value;
    var (node', child) :- AddChild(rt, node, name, args);
    var root' := Replace(root, p, node');
    var q := p + [|node.children|];
    ReplaceAt(root, p, node', []);
    AtConcat(root', p, [|node.children|]);
    assert q[..|p|] == p;
    forall q' | Diverge(p, q') ensures At(root', q') == At(root, q') {
      ReplaceAt(root, p, node', q');
    }
    Success((root', q))
  }
}

=== FILE: php_arrays.dfy ===
/** PHP values and string-keyed PHP arrays, as far as the core looks into them. */
module PhpArrays {

  /** A PHP value. The core only ever asks whether a value is `null`. */
  datatype Value = Null | Bool(b: bool) | Int(i: int) | Str(s: string) | List(items: seq<Value>)

  /** A string-keyed PHP array in iteration order, as `[k1 => v1, k2 => v2, ...]`. */
  type Assoc<V> = seq<(string, V)>

  /** The key/value mapping an array literal denotes: later entries overwrite
      earlier ones with the same key. */
  function ToMap<V>(a: Assoc<V>): map<string, V>
    decreases |a|
  {
    if |a| == 0 then map[] else ToMap(a[..|a| - 1])[a[|a| - 1].0 := a[|a| - 1].1]
  }

  /** Every key of the array is in its mapping, and nothing else. */
  lemma {:induction false} ToMapKeys<V>(a: Assoc<V>)
    ensures forall k :: k in ToMap(a) <==> exists i :: 0 <= i < |a| && a[i].0 == k
    decreases |a|
  {
    if |a| > 0 {
      var init := a[..|a| - 1];
      ToMapKeys(init);
      forall k ensures k in ToMap(a) <==> exists i :: 0 <= i < |a| && a[i].0 == k {
        if k in ToMap(a) && k != a[|a| - 1].0 {
          assert k in ToMap(init);
          var i :| 0 <= i < |init| && init[i].0 == k;
          assert a[i].0 == k;
        }
        if (exists i :: 0 <= i < |a| && a[i].0 == k) && k != a[|a| - 1].0 {
          var i :| 0 <= i < |a| && a[i].0 == k;
          assert init[i].0 == k;
        }
      }
    }
  }

  /** The value of a key is the one in its last entry. */
  lemma {:induction false} ToMapLast<V>(a: Assoc<V>, i: nat)
    requires i < |a|
    requires forall j :: i < j < |a| ==> a[j].0 != a[i].0
    ensures a[i].0 in ToMap(a) && ToMap(a)[a[i].0] == a[i].1
    decreases |a|
  {
    if i < |a| - 1 {
      var init := a[..|a| - 1];
      assert init[i] == a[i];
      ToMapLast(init, i);
    }
  }

  /** Peeling off the first entry: it is overwritten by any later entry for its key. */
  lemma {:induction false} ToMapCons<V>(a: Assoc<V>)
    requires |a| > 0
    ensures ToMap(a) == map[a[0].0 := a[0].1] + ToMap(a[1..])
    decreases |a|
  {
    if |a| == 1 {
      assert a[1..] == [];
    } else {
      var init := a[..|a| - 1];
      ToMapCons(init);
      assert init[0] == a[0];
      assert init[1..] == a[1..][..|a[1..]| - 1];
      assert a[1..][|a[1..]| - 1] == a[|a| - 1];
    }
  }

  /** `foreach ($a as $k => $v) { $m[$k] = $v; }`: the entries of a are written
      into m one at a time, front to back. This is also what `array_merge` does
      for string keys. */
  function Merge<V>(m: map<string, V>, a: Assoc<V>): (r: map<string, V>)
    ensures r == m + ToMap(a)
    decreases |a|
  {
    if |a| == 0 then m
    else
      ToMapCons(a);
      Merge(m[a[0].0 := a[0].1], a[1..])
  }
}

=== FILE: registrar.dfy ===
/** The registrar: the process-wide map from a component name to the name of
    the class that implements it. */
module Registrar {
  import opened Wrappers
  import opened Errors
  import opened PhpArrays

  /** `register($name)` without a class stores `null`, hence `Option`. */
  datatype Registry = Registry(components: map<string, Option<string>>)

  /** A fresh registrar knows no names. */
  function New(): (r: Registry)
    ensures forall name :: !Has(r, name)
  {
    Registry(map[])
  }

  /** `has`: the name has an entry, even one whose class is `null`. */
  predicate Has(r: Registry, name: string) {
    name in r.components
  }

  /** Single `register($name, $class)`: adds or overwrites one entry. */
  function Register(r: Registry, name: string, cls: Option<string>): (r': Registry)
    ensures Has(r', name) && r'.components[name] == cls
    ensures forall n :: n != name ==> (Has(r', n) <==> Has(r, n))
    ensures forall n :: n != name && Has(r, n) ==> Has(r', n) && r'.components[n] == r.components[n]
  {
    Registry(r.components[name := cls])
  }

  /** Bulk `register([$name => $class, ...])`: registers each entry in turn, so
      each listed name ends up with the class of its last entry and every other
      name keeps what it had. */
  method RegisterAll(r: Registry, entries: Assoc<Option<string>>) returns (r': Registry)
    ensures r'.components == r.components + ToMap(entries)
    ensures forall i :: 0 <= i < |entries| && (forall j :: i < j < |entries| ==> entries[j].0 != entries[i].0)
              ==> Has(r', entries[i].0) && r'.components[entries[i].0] == entries[i].1
    ensures forall n :: (forall j :: 0 <= j < |entries| ==> entries[j].0 != n) ==> Get(r', n) == Get(r, n)
  {
    r' := r;
    var i := 0;
    while i < |entries|
      invariant 0 <= i <= |entries|
      invariant r'.components == r.components + ToMap(entries[..i])
    {
      assert entries[..i + 1][..i] == entries[..i];
      r' := Register(r', entries[i].0, entries[i].1);
      i := i + 1;
    }
    assert entries[..i] == entries;
    forall k | 0 <= k < |entries| && (forall j :: k < j < |entries| ==> entries[j].0 != entries[k].0)
      ensures Has(r', entries[k].0) && r'.components[entries[k].0] == entries[k].1
    {
      ToMapLast(entries, k);
    }
    ToMapKeys(entries);
  }

  /** `get`: the class registered under a name. */
  function Get(r: Registry, name: string): (res: Result<string, Error>)
    ensures !Has(r, name) <==> res == Failure(UnknownComponent(name))
    ensures res.Success? <==> Has(r, name) && r.components[name].Some?
    ensures res.Success? ==> r.components[name] == Some(res.value)
  {
    if !Has(r, name) then Failure(UnknownComponent(name))
    else match r.components[name]
      case Some(cls) => Success(cls)
      case None => Failure(NullReturn("KraftHaus\\Atomic\\Registrar::get"))
  }

  /** After `register(n, c)`, `get(n)` returns c. */
  lemma RegisterThenGet(r: Registry, name: string, cls: string)
    ensures Has(Register(r, name, Some(cls)), name)
    ensures Get(Register(r, name, Some(cls)), name) == Success(cls)
  {
  }

  /** Registering a name again overwrites it: the last registration wins. */
  lemma LastRegistrationWins(r: Registry, name: string, first: Option<string>, second: Option<string>)
    ensures Register(Register(r, name, first), name, second) == Register(r, name, second)
  {
  }

  /** Registering one name does not change what any other name resolves to. */
  lemma RegisterFrame(r: Registry, name: string, cls: Option<string>, other: string)
    requires other != name
    ensures Get(Register(r, name, cls), other) == Get(r, other)
  {
  }
}

=== FILE: wrappers.dfy ===
/** Failure-compatible datatypes used throughout the model: a PHP call either
    returns a value or throws, and a thrown exception is a `Failure`. */
module Wrappers {

  /** An optional value; `None` stands for PHP `null` or an absent entry. */
  datatype Option<+T> = None | Some(value: T)

  /** The outcome of a PHP call that returns a value or throws. */
  datatype Result<+R, +E> = Success(value: R) | Failure(error: E) {

    predicate IsFailure() {
      Failure?
    }

    function PropagateFailure<U>(): Result<U, E>
      requires Failure?
    {
      Failure(error)
    }

    function Extract(): R
      requires Success?
    {
      value
    }
  }

  /** The outcome of a PHP call made only for its effect. */
  datatype Outcome<+E> = Pass | Fail(error: E)
}
